=== FILE: README.md ===
# Whiteboard pointer interaction, modelled in Dafny

This project models the collaborative whiteboard component
(`src/components/WhiteBoard.tsx`). It covers how the component reacts to the
pointer: the React state it keeps (`action`, `isDrawing`, the in-progress
stroke `points`, the committed strokes `path`, the shapes `elements`, and
`selectedElement`) and the three handlers `handleMouseDown`,
`handleMouseMove` and `handleMouseUp`. Each handler is one synchronous
transition on that state. It also models the eraser scan `checkPresent`, the
`updateElement` copy-and-write helper, and the room/sender test that a
received "draw" snapshot must pass.

Modules:

- `Optional`: an option type.
- `JsArray`: JavaScript sparse-array behaviour for the element list.
  - Slots are a hole, `undefined`, or a value.
  - Spreading an array turns its holes into `undefined`.
  - Writing past the end extends the array with holes.
  - `splice(k, 1)` removes one entry.
- `Scene`: tools, stroke points, elements, selections and actions.
- `EraserScan`: `checkPresent`.
  - Methods follow the splice-during-`forEach` loops step by step.
  - Structural functions define the same result.
  - Each method is proved equal to its function.
- `Board`: the state record, the handlers, and `Run` over an event sequence.
- `BoardProperties`: whole gestures (freehand stroke, shape, drag) and the
  effects of ids that no longer match indices.
- `Sync`: the inbound "draw" listener (lines 348-353): its filter and what
  happens to a message that passes it.

The helpers imported from `./Element` are a parameter of every transition:
`getElementAtPosition`, `resizedCoordinates` and `adjustElementCoordinates`.
They are fields of a `Geometry` record, and every property is proved for all
such helpers.

The model keeps several behaviours of the code exactly as written:

- **The eraser skips the entry after each removal.** `forEach` visits an index
  only while it still exists, with a bound fixed at the start. So after
  `splice(index, 1)`, the entry that slides into `index` is never tested.
- **A stroke hit at h points removes h strokes.** Its index is spliced once
  per hit point, so the stroke goes, and so do the h - 1 strokes that shift
  into its index after it.
- **The first point of a drag uses different field names.** It copies the
  previous point's `newColour`/`newLinewidth` into fields named
  `colour`/`linewidth`. Every later point of the drag therefore reads those
  fields as undefined.
- **A moved element loses its stroke width.** The width is read from a
  `shapeWidth` field, which the element does not have.
- **Releasing after a move does not normalise the element.**
- **Ids are never reassigned.** After the eraser removes an element, an
  element's id can differ from its index. `updateElement` then writes past the
  end or onto another slot.
- **Reading an absent entry throws.** Such a read (`elements[index].x1` and
  similar) is a thrown TypeError, modelled as `Threw(state)`. The state keeps
  every update made before the throw.

`handleMouseUp` never clears `selectedElement`, and `Board.MouseUp` ensures
`r.state.selected == s.selected`.

## Model

| member | source | states |
|---|---|---|
| JsArray.Spread | src/components/WhiteBoard.tsx:122 | The copy `[...elements]` has the same length, has no holes, keeps every non-hole entry, and turns each hole into `undefined`. |
| JsArray.Assign | src/components/WhiteBoard.tsx:123 | Writing at an index puts the value there and keeps all other entries. Past the end, the array grows to index + 1 and the gap is holes. |
| JsArray.SpliceOne | src/components/WhiteBoard.tsx:155 | `splice(k, 1)` removes entry k and shifts the rest down by one. An index past the end changes nothing. |
| Scene.NewColour | src/components/WhiteBoard.tsx:247 | A point's `newColour` is defined exactly when the point was created by mouse-down, and is then the colour stored at that mouse-down. Points appended on move do not have it. |
| Scene.NewLinewidth | src/components/WhiteBoard.tsx:248 | A point's `newLinewidth` is defined exactly when the point was created by mouse-down, and is then the width stored at that mouse-down. |
| Board.UpdateElement | src/components/WhiteBoard.tsx:102-125 | The slot at `index` holds the new element with id `index`. Other entries are kept, except that holes become `undefined`. An index past the end extends the list with holes. |
| Board.GrabAt | src/components/WhiteBoard.tsx:169-180 | A miss changes nothing. A hit selects the element with its position tag and grab offset, and sets the action to moving exactly when the position is "inside" (otherwise resize). |
| Board.StartSketch | src/components/WhiteBoard.tsx:188-202 | Starts sketching and appends one point at the click. The point has the current colour and width and transparency 0.1 for the brush, 1.0 for the pencil. Path and elements are untouched. |
| Board.StartShape | src/components/WhiteBoard.tsx:209-225 | Appends a zero-sized element at the click whose id is the old element count, and selects it. Earlier entries are kept, holes among them become `undefined`, and the list has no holes. |
| Board.CheckPresent | src/components/WhiteBoard.tsx:127-160 | The eraser only removes strokes and elements: each remaining list is the original with some entries removed and the rest in their order (`Sub`). Every removed element is one whose closed box holds the pointer. A hit stroke always shortens the path. An element whose box holds the pointer always shortens the list, unless the scan throws. Nothing changes when nothing is under the pointer. A throw requires an undefined entry. |
| Board.MouseDown | src/components/WhiteBoard.tsx:162-228 | The text tool does nothing. The eraser sets the action to erasing. Every other tool leaves the path alone and adds at most one element. A reachable state stays reachable. |
| Board.ExtendSketch | src/components/WhiteBoard.tsx:245-252 | Appends one point at the pointer that copies the previous point's `newColour`/`newLinewidth` as `colour`/`linewidth` and its transparency. An empty buffer throws. |
| Board.StretchShape | src/components/WhiteBoard.tsx:257-271 | The last element keeps its anchor, and its far corner moves to the pointer in the current tool, width and colour. The length is kept, and other entries are kept with holes becoming `undefined`. A missing last element throws. |
| Board.MoveSelection | src/components/WhiteBoard.tsx:272-298 | The selected id's slot gets the element's width and height with its top-left at pointer minus offset, and an undefined stroke width. The list is the spread copy written at that id: an id inside keeps the count, other entries are kept with holes becoming `undefined`, and a stale id past the end grows the list with holes in the gap. No selection throws. |
| Board.ResizeSelection | src/components/WhiteBoard.tsx:299-308 | The selected id's slot gets the corners `resizedCoordinates` computes, in the current width and colour. The list is the spread copy written at that id: exact length, other entries kept with holes becoming `undefined`, holes in any gap past the old end. No selection throws. |
| Board.MouseMove | src/components/WhiteBoard.tsx:230-309 | Action, selection and `isDrawing` never change. Only erasing touches the path and only sketching touches the buffer. From a reachable state only the eraser can throw. |
| Board.FinishResize | src/components/WhiteBoard.tsx:311-315 | The element read at index `selectedElement.id` is normalised and written at its own `id`, with its own width and colour, and the action becomes none. The list is the spread copy written at that id, with exact length, other entries kept and holes becoming `undefined`. No element at the selected index throws with the state unchanged. |
| Board.FinishDrawing | src/components/WhiteBoard.tsx:316-320 | The drawn element is normalised and written at its own `id`, with its own width and the current colour, and the action becomes none. The list is the spread copy written at that id, with exact length, other entries kept and holes becoming `undefined`. No element at the selected index throws. |
| Board.FinishSketch | src/components/WhiteBoard.tsx:321-328 | The buffer is appended to the path as one stroke and emptied, and drawing stops. Elements and selection are untouched. |
| Board.MouseUp | src/components/WhiteBoard.tsx:310-331 | Ends with action none unless it throws. Only a resize or a drawing can throw, and they leave the state as it was. The selection is never cleared. Other actions leave the elements alone. A resize or drawing that completes writes the normalised element at its own id into the spread copy, in its own colour after a resize and the current colour after drawing. From a reachable state only a resize can throw. |
| Board.Run | src/components/WhiteBoard.tsx:162-331 | Any sequence of pointer events from a reachable state ends in a reachable state: moving and resizing have a grabbed selection, sketching has a non-empty buffer, and drawing has its element last. |
| EraserScan.HitCount | src/components/WhiteBoard.tsx:131-137 | The number of splices a stroke causes is at most its length, and is zero exactly when no point lies strictly within 10 of the pointer on both axes. |
| EraserScan.SweepStrokes | src/components/WhiteBoard.tsx:128-145 | The stroke scan keeps a sub-multiset of the path, with the surviving strokes in their order. It is the identity when no stroke is hit and strictly shortens the path when one is. |
| EraserScan.SweepByKeeps | src/components/WhiteBoard.tsx:139 | Splicing during the walk only removes strokes: the result is a sub-multiset of the input. |
| EraserScan.SweepByOrdered | src/components/WhiteBoard.tsx:130-145 | The strokes the walk keeps stay in their original order, whatever each visit splices. |
| EraserScan.SweepByIdle | src/components/WhiteBoard.tsx:130-145 | When no stroke is hit, the scan returns the path unchanged. |
| EraserScan.SweepByShrinks | src/components/WhiteBoard.tsx:130-145 | When some stroke is hit, the scan returns a strictly shorter path. |
| EraserScan.ForEachStroke | src/components/WhiteBoard.tsx:130-145 | The outer walk, with its bound fixed up front and visiting only indices that still exist, equals the structural sweep, which is `SweepStrokes`. |
| EraserScan.SpliceHits | src/components/WhiteBoard.tsx:131-144 | The inner walk over one stroke splices index k once per hit point, removing as many entries from k as there are hits, capped by what remains. |
| EraserScan.SweepElements | src/components/WhiteBoard.tsx:146-159 | The element scan keeps a sub-multiset, with the survivors in their order. Every entry it removes is an element whose closed box holds the pointer. It is the identity when no element's box contains the pointer, and strictly shorter when one does, unless it throws. It throws only if an entry is undefined, so never on a list of elements without holes. |
| EraserScan.SweepSlotsKeeps | src/components/WhiteBoard.tsx:155 | Splicing during the element walk only removes entries. |
| EraserScan.SweepSlotsOrdered | src/components/WhiteBoard.tsx:146-159 | The entries the element walk keeps stay in their original order. |
| EraserScan.SweepSlotsRemovesBoxed | src/components/WhiteBoard.tsx:150-156 | Only an element whose closed box holds the pointer is ever spliced out. The element that slides into its index is kept untested, and an undefined entry stops the walk with everything after it kept. |
| EraserScan.SweepSlotsIdle | src/components/WhiteBoard.tsx:147-159 | With no element under the pointer, the element walk removes nothing. |
| EraserScan.SweepSlotsRemoves | src/components/WhiteBoard.tsx:147-158 | With an element under the pointer, the element walk removes at least one entry unless it stops on an undefined entry. |
| EraserScan.SweepSlotsThrows | src/components/WhiteBoard.tsx:148-152 | Reading `ele.x1` throws only on an undefined entry, so a list without holes or undefined entries never throws. |
| EraserScan.ForEachElement | src/components/WhiteBoard.tsx:147-159 | The element walk (holes skipped, undefined entries throwing, hits spliced) equals the structural sweep `SweepSlots`, including where it throws. `SweepElements` returns that same sweep and states its properties. |
| EraserScan.SweepByOne | src/components/WhiteBoard.tsx:130-145 | When exactly one entry is hit, once, the scan removes exactly that entry. |
| EraserScan.EraseOneStroke | src/components/WhiteBoard.tsx:130-145 | When exactly one stroke is under the eraser, at exactly one point, exactly that stroke is removed and the others keep their order. |
| EraserScan.EraseTakesNeighbour | src/components/WhiteBoard.tsx:139 | A first stroke hit at two points is spliced twice, so it also removes the stroke after it, untested. The scan resumes two entries later. |
| EraserScan.EraseSkipsNext | src/components/WhiteBoard.tsx:130-145 | Of two strokes both hit once, only the first is removed: the second slides into the visited index and is never tested. |
| EraserScan.EraseOneElement | src/components/WhiteBoard.tsx:146-159 | When exactly one element's box contains the pointer, exactly that element is removed and no error is thrown. |
| EraserScan.EraseSkipsNextElement | src/components/WhiteBoard.tsx:147-158 | Of two elements whose boxes both contain the pointer, only the first is removed. |
| BoardProperties.RunAppend | src/components/WhiteBoard.tsx:162-331 | Handling two event sequences one after the other is handling their concatenation. |
| BoardProperties.SketchDrag | src/components/WhiteBoard.tsx:245-252 | While sketching, a drag appends one point per move at the pointer positions and changes nothing else. |
| BoardProperties.FreehandStroke | src/components/WhiteBoard.tsx:188-202 | Pencil or brush down, drag and up commit one stroke of one point per event, in order, at the end of the path. Only its first point has `newColour`, only its second has `colour`, and all share the tool's transparency. |
| BoardProperties.ShapeDrag | src/components/WhiteBoard.tsx:257-271 | Through a drag, the shape being drawn keeps its anchor and ends with its far corner at the last pointer position. |
| BoardProperties.ShapeLifecycle | src/components/WhiteBoard.tsx:209-225 | A shape tool's down, drag and up add exactly one element. It is anchored at the click, its far corner is at the release point, and it is normalised once by `adjustElementCoordinates`. Earlier elements are kept. |
| BoardProperties.UpdateElementInPlace | src/components/WhiteBoard.tsx:122-123 | On a list without holes and an index inside it, `updateElement` replaces exactly that one slot. |
| BoardProperties.DragTranslates | src/components/WhiteBoard.tsx:272-298 | Grabbing inside and moving translates the element by the pointer's displacement, keeping its size. Releasing does not normalise it. |
| BoardProperties.ResizeGesture | src/components/WhiteBoard.tsx:299-315 | Grabbing a handle, moving and releasing writes the element's slot with the corners `resizedCoordinates` gives for that handle, normalised once by `adjustElementCoordinates`, in the toolbar's width and colour. The count grows only for a stale id, every other element is kept, and strokes are untouched. |
| BoardProperties.MoveIdempotent | src/components/WhiteBoard.tsx:272-298 | Repeating a move at the same pointer changes only holes into `undefined`. Without holes, and with an id no larger than the count, it is idempotent. |
| BoardProperties.EraseFirstRect | src/components/WhiteBoard.tsx:181-184 | On two rectangles, the eraser over the first removes only that one. The survivor keeps its id 1 but now sits at index 0. |
| BoardProperties.StaleIdStallsResize | src/components/WhiteBoard.tsx:311-315 | After the first of two elements is erased, grabbing the survivor by a corner and releasing it without moving throws, because its id no longer indexes it, and the action stays "resize". |
| BoardProperties.StaleIdResizeDuplicates | src/components/WhiteBoard.tsx:299-315 | After the first of two elements is erased, grabbing the survivor by a corner, moving and releasing completes. The move writes the resized copy at index 1, where the release finds it. The list ends with two entries: the original at index 0 and an element with id 1 at index 1, so the element appears twice. |
| BoardProperties.StaleIdDuplicatesOnMove | src/components/WhiteBoard.tsx:289-298 | After the first of two elements is erased, dragging the survivor writes the moved copy at its old id and keeps the original, so the element appears twice. |
| Sync.Accepts | src/components/WhiteBoard.tsx:349 | For a string room, a message passes the filter exactly when its room is that string and its sender is not the local user. The local user's own message never passes. An array room matches nothing. With an undefined room, only a message whose room is undefined, from another sender, passes. |
| Sync.Receive | src/components/WhiteBoard.tsx:348-353 | A message is painted exactly when it is present, its room strictly equals the local room, and its sender is someone else. The listener throws exactly when the message is missing and the local room is undefined, since the missing message then passes the filter and `data.blob` is read from it. Every other message is ignored. |

## Left out

- Canvas rendering is not modelled: the redraw effect (lines 47-100), the path drawing on mouse-down and mouse-move (204-208, 253-256), `midPointBtw`, and the hover cursor `cursorForPosition` (236-241). The redraw effect is more than a view of the state. It destructures `roughElement` from every entry it visits (line 90), so it throws on an `undefined` entry. The model reaches such entries: a stale id written past the end leaves holes, and the next spread copy turns them into `undefined`. That render-time failure is not modelled.
- The snapshot transport is not modelled, because it is I/O and timers: `toBlob`, the one-second debounce, `emit` (333-346), `initSocket` (356-362) and `blob2canvas` (16-22). Only the listener's filter and its read of `data.blob` (348-353) are modelled.
- The `./Element` helpers are parameters, because their bodies are not part of this model: `getElementAtPosition`, `resizedCoordinates` and `adjustElementCoordinates`. The rough.js drawable that `createElement` attaches to an element is not kept, because nothing here reads it.
- `getElementAtPosition` may itself throw on an undefined entry; any such throw is outside the model, because the helper's body is not available.
- The JSX, toolbar and touch adapters (363-401) are not modelled. The touch adapters pass an object without a `target`, so with the selection tool every touch move throws at `e.target.style.cursor` (line 238), before the moving and resize branches run. Touch users therefore cannot move or resize. The model omits the hover-cursor step (236-241), so this failure is outside it. `src/pages/_app.tsx` is not modelled either, because it only mounts the page.
- React's batching and deferred state updates are not modelled: each handler is one atomic transition on the state it reads.
- Coordinates are integers. The source uses floating-point pixel offsets (`e.clientX - rect.left`); only comparisons, addition and subtraction are applied to them.
- The in-place writes of `strokeColor`/`strokeWidth` to the last element on lines 260-261 are left out, because `updateElement` overwrites that slot with a new object in the same handler.
- The guard `path === undefined` (line 128) is left out. Within WhiteBoard.tsx, `path` starts as `[]` and is only ever set to arrays.
- Writes by `Toolbar`, which also receives `setPath` and `setElements` (lines 371, 373), are not modelled; its body is not part of this model. `Board.Consistent` is an invariant of the pointer handlers only, and a toolbar write (clearing the elements during a drawing, say) can break it.
- Board.MouseMove: requires that a move or resize in progress has a selection made by the selection tool. A selection set by a shape tool has no grab offset and would compute NaN coordinates, which no sequence of events reaches (Board.Run keeps this invariant).
- Board.MouseDown: the number of elements can also shrink on mouse-down (the eraser), and the contract states only the bound of one added element.

=== FILE: board.dfy ===
/**
 The pointer-interaction state machine of the whiteboard component: the
 React state it keeps and the three handlers `handleMouseDown`,
 `handleMouseMove` and `handleMouseUp`, each one synchronous transition on
 that state. The toolbar settings and the pointer position are inputs to
 each transition; the geometry helpers of ./Element are a parameter.
 */
module Board {
  import opened Optional
  import opened JsArray
  import opened Scene
  import EraserScan

  /** The toolbar settings a handler reads: `toolType`, `colorWidth.hex`,
      `width` (freehand) and `shapeWidth` */
  datatype Config = Config(tool: Tool, hex: string, width: int, shapeWidth: int)

  /** The helpers imported from ./Element, whose bodies are not part of this
      model: `getElementAtPosition`, `resizedCoordinates` and
      `adjustElementCoordinates`. Any functions of these types may be given. */
  datatype Geometry = Geometry(
    elementAt: (int, int, seq<Slot<Element>>) -> Option<Hit>,
    resized: (int, int, string, Corners) -> Corners,
    adjust: Element -> Corners)

  /** The component's state: `action`, `isDrawing`, the stroke-in-progress
      buffer `points`, the committed strokes `path`, the shapes `elements`
      and `selectedElement` */
  datatype State = State(
    action: Action,
    isDrawing: bool,
    points: Stroke,
    path: seq<Stroke>,
    elements: seq<Slot<Element>>,
    selected: Option<Selected>)

  /** How a handler ends: it returns, or it throws a TypeError. Either way the
      state holds every update made before the end. */
  datatype Outcome = Done(state: State) | Threw(state: State)

  /** The state on first render (lines 31-37) */
  function Initial(): State {
    State(Idle, false, [], [], [], None)
  }

  /** The `transparency` of a stroke point (line 194) */
  function Transparency(tool: Tool): string {
    if tool.Brush? then "0.1" else "1.0"
  }

  function Last<T>(s: seq<T>): T
    requires |s| > 0
  {
    s[|s| - 1]
  }

  /** `updateElement` (lines 102-125): builds the element with id `index`,
      copies the list with a spread and writes the copy at `index`. */
  function UpdateElement(elements: seq<Slot<Element>>, index: nat, x1: int, y1: int, x2: int, y2: int,
                         kind: Tool, strokeWidth: Option<int>, strokeColor: string): (r: seq<Slot<Element>>)
    ensures SpreadWrite(elements, r, index)
    ensures r[index] == Filled(Element(index, x1, y1, x2, y2, kind, strokeWidth, strokeColor))
  {
    Assign(Spread(elements), index, Element(index, x1, y1, x2, y2, kind, strokeWidth, strokeColor))
  }

  // ---------------------------------------------------------------------
  // Mouse-down (lines 162-228)
  // ---------------------------------------------------------------------

  /** Selection tool (lines 169-180): on a hit, record the element with its
      position tag and grab offset, and start moving (inside) or resizing */
  function GrabAt(s: State, x: int, y: int, geo: Geometry): (r: State)
    ensures geo.elementAt(x, y, s.elements).None? ==> r == s
    ensures geo.elementAt(x, y, s.elements).Some? ==>
      var h := geo.elementAt(x, y, s.elements).value;
      && (r.action == Moving <==> h.position == "inside")
      && (r.action == Resize <==> h.position != "inside")
      && r.selected.Some? && r.selected.value.Grabbed?
      && r.selected.value.elem == h.elem && r.selected.value.position == h.position
      && h.elem.x1 + r.selected.value.offsetX == x && h.elem.y1 + r.selected.value.offsetY == y
      && r == s.(action := r.action, selected := r.selected)
  {
    match geo.elementAt(x, y, s.elements)
    case None => s
    case Some(h) =>
      s.(selected := Some(Grabbed(h.elem, h.position, x - h.elem.x1, y - h.elem.y1)),
         action := if h.position == "inside" then Moving else Resize)
  }

  /** Pencil or brush (lines 188-202): start sketching and append one point
      carrying the current colour and width */
  function StartSketch(s: State, cfg: Config, x: int, y: int): (r: State)
    requires cfg.tool.Pencil? || cfg.tool.Brush?
    ensures r.action == Sketching && r.isDrawing
    ensures |r.points| == |s.points| + 1 && r.points[..|s.points|] == s.points
    ensures var p := Last(r.points);
      && p.clientX == x && p.clientY == y
      && NewColour(p) == Some(cfg.hex) && NewLinewidth(p) == Some(cfg.width)
      && (cfg.tool.Brush? ==> p.transparency == "0.1")
      && (cfg.tool.Pencil? ==> p.transparency == "1.0")
    ensures r.path == s.path && r.elements == s.elements && r.selected == s.selected
  {
    var p := Point(x, y, StyleNew(cfg.hex, cfg.width), Transparency(cfg.tool));
    s.(action := Sketching, isDrawing := true, points := s.points + [p])
  }

  /** A shape tool (lines 209-225): append a zero-sized element at the click
      whose id is the previous element count, and select it */
  function StartShape(s: State, cfg: Config, x: int, y: int): (r: State)
    requires cfg.tool.Shape?
    ensures r.action == Drawing
    ensures |r.elements| == |s.elements| + 1
    ensures var e := Element(|s.elements|, x, y, x, y, cfg.tool, Some(cfg.shapeWidth), cfg.hex);
      && Last(r.elements) == Filled(e)
      && r.selected == Some(Created(e))
    ensures forall i :: 0 <= i < |s.elements| && !s.elements[i].Hole? ==> r.elements[i] == s.elements[i]
    ensures forall i :: 0 <= i < |s.elements| && s.elements[i].Hole? ==> r.elements[i] == Undefined
    ensures Dense(r.elements)
    ensures r.isDrawing == s.isDrawing && r.points == s.points && r.path == s.path
  {
    var e := Element(|s.elements|, x, y, x, y, cfg.tool, Some(cfg.shapeWidth), cfg.hex);
    s.(action := Drawing, elements := Spread(s.elements) + [Filled(e)], selected := Some(Created(e)))
  }

  /** `checkPresent` (lines 127-160) on the state: the stroke scan, then the
      element scan, both splicing the state's own arrays in place */
  function CheckPresent(s: State, x: int, y: int): (r: Outcome)
    ensures r.state == s.(path := r.state.path, elements := r.state.elements)
    ensures |r.state.path| <= |s.path| && |r.state.elements| <= |s.elements|
    ensures multiset(r.state.path) <= multiset(s.path) && multiset(r.state.elements) <= multiset(s.elements)
    ensures Sub(r.state.path, s.path) && Sub(r.state.elements, s.elements)
    ensures forall e | e in multiset(s.elements) - multiset(r.state.elements) :: e.Filled? && EraserScan.InBox(e.value, x, y)
    ensures !EraserScan.TouchesAny(s.path, x, y) ==> r.state.path == s.path
    ensures EraserScan.TouchesAny(s.path, x, y) ==> |r.state.path| < |s.path|
    ensures !EraserScan.BoxesAny(s.elements, x, y) ==> r.state.elements == s.elements
    ensures EraserScan.BoxesAny(s.elements, x, y) ==> r.Threw? || |r.state.elements| < |s.elements|
    ensures r.Threw? ==> exists k :: 0 <= k < |s.elements| && s.elements[k].Undefined?
  {
    var scan := EraserScan.SweepElements(s.elements, x, y);
    var next := s.(path := EraserScan.SweepStrokes(s.path, x, y), elements := scan.kept);
    if scan.threw then Threw(next) else Done(next)
  }

  /** `handleMouseDown` */
  function MouseDown(s: State, cfg: Config, x: int, y: int, geo: Geometry): (r: Outcome)
    ensures cfg.tool.Text? ==> r == Done(s)
    ensures cfg.tool.Eraser? ==> r.state.action == Erasing
    ensures !cfg.tool.Eraser? ==> r.Done? && r.state.path == s.path
    ensures |r.state.elements| <= |s.elements| + 1
    ensures Consistent(s) ==> Consistent(r.state)
  {
    match cfg.tool
    case Selection => Done(GrabAt(s, x, y, geo))
    case Eraser => CheckPresent(s.(action := Erasing), x, y)
    case Text => Done(s)
    case Pencil => Done(StartSketch(s, cfg, x, y))
    case Brush => Done(StartSketch(s, cfg, x, y))
    case Shape(_) => Done(StartShape(s, cfg, x, y))
  }

  // ---------------------------------------------------------------------
  // Mouse-move (lines 230-309)
  // ---------------------------------------------------------------------

  /** Sketching (lines 245-252): append one point at the pointer. Its style
      fields are named `colour`/`linewidth` but copied from the previous
      point's `newColour`/`newLinewidth`. An empty buffer makes
      `points[points.length - 1].newColour` throw. */
  function ExtendSketch(s: State, x: int, y: int): (r: Outcome)
    ensures |s.points| == 0 ==> r == Threw(s)
    ensures |s.points| > 0 ==>
      && r.Done?
      && r.state == s.(points := r.state.points)
      && |r.state.points| == |s.points| + 1 && r.state.points[..|s.points|] == s.points
      && var p, prev := Last(r.state.points), Last(s.points);
      && p.clientX == x && p.clientY == y
      && p.style.StylePlain? && p.style.colour == NewColour(prev) && p.style.linewidth == NewLinewidth(prev)
      && p.transparency == prev.transparency
  {
    if |s.points| == 0 then Threw(s)
    else
      var prev := Last(s.points);
      var p := Point(x, y, StylePlain(NewColour(prev), NewLinewidth(prev)), prev.transparency);
      Done(s.(points := s.points + [p]))
  }

  /** Drawing (lines 257-271): the last element keeps its anchor (x1, y1) and
      its far corner follows the pointer, with the current tool, width and
      colour. Reading an absent last element throws. */
  function StretchShape(s: State, cfg: Config, x: int, y: int): (r: Outcome)
    ensures |s.elements| == 0 || !Last(s.elements).Filled? ==> r == Threw(s)
    ensures |s.elements| > 0 && Last(s.elements).Filled? ==>
      && r.Done?
      && r.state == s.(elements := r.state.elements)
      && |r.state.elements| == |s.elements|
      && var i, a := |s.elements| - 1, Last(s.elements).value;
      && r.state.elements[i] == Filled(Element(i, a.x1, a.y1, x, y, cfg.tool, Some(cfg.shapeWidth), cfg.hex))
      && SpreadWrite(s.elements, r.state.elements, i)
  {
    if |s.elements| == 0 || !Last(s.elements).Filled? then Threw(s)
    else
      var index := |s.elements| - 1;
      var a := s.elements[index].value;
      Done(s.(elements := UpdateElement(s.elements, index, a.x1, a.y1, x, y, cfg.tool, Some(cfg.shapeWidth), cfg.hex)))
  }

  /** Moving (lines 272-298): rewrite the selected element's slot with its
      captured width and height, top-left at the pointer minus the grab
      offset. The width is read from a `shapeWidth` field the element does not
      have, so the rewritten element's stroke width is undefined. */
  function MoveSelection(s: State, x: int, y: int): (r: Outcome)
    requires s.selected.Some? ==> s.selected.value.Grabbed?
    ensures s.selected.None? ==> r == Threw(s)
    ensures s.selected.Some? ==>
      && r.Done?
      && r.state == s.(elements := r.state.elements)
      && var g := s.selected.value;
      && SpreadWrite(s.elements, r.state.elements, g.elem.id)
      && var m := r.state.elements[g.elem.id];
      && m.Filled? && m.value.id == g.elem.id
      && m.value.x1 + g.offsetX == x && m.value.y1 + g.offsetY == y
      && m.value.x2 - m.value.x1 == g.elem.x2 - g.elem.x1
      && m.value.y2 - m.value.y1 == g.elem.y2 - g.elem.y1
      && m.value.kind == g.elem.kind && m.value.strokeColor == g.elem.strokeColor
      && m.value.strokeWidth.None?
  {
    match s.selected
    case None => Threw(s)
    case Some(g) =>
      var e := g.elem;
      var newX, newY := x - g.offsetX, y - g.offsetY;
      Done(s.(elements := UpdateElement(s.elements, e.id, newX, newY, newX + (e.x2 - e.x1), newY + (e.y2 - e.y1),
                                        e.kind, None, e.strokeColor)))
  }

  /** Resizing (lines 299-308): rewrite the selected element's slot with the
      coordinates `resizedCoordinates` derives from the captured element, in
      the current width and colour */
  function ResizeSelection(s: State, cfg: Config, x: int, y: int, geo: Geometry): (r: Outcome)
    requires s.selected.Some? ==> s.selected.value.Grabbed?
    ensures s.selected.None? ==> r == Threw(s)
    ensures s.selected.Some? ==>
      && r.Done?
      && r.state == s.(elements := r.state.elements)
      && var g := s.selected.value;
      && var c := geo.resized(x, y, g.position, CornersOf(g.elem));
      && SpreadWrite(s.elements, r.state.elements, g.elem.id)
      && r.state.elements[g.elem.id] == Filled(Element(g.elem.id, c.x1, c.y1, c.x2, c.y2, g.elem.kind, Some(cfg.shapeWidth), cfg.hex))
  {
    match s.selected
    case None => Threw(s)
    case Some(g) =>
      var c := geo.resized(x, y, g.position, CornersOf(g.elem));
      Done(s.(elements := UpdateElement(s.elements, g.elem.id, c.x1, c.y1, c.x2, c.y2, g.elem.kind, Some(cfg.shapeWidth), cfg.hex)))
  }

  /** A move or resize in progress always has a grab offset and position to
      read: the selection was made by the selection tool */
  predicate OffsetsKnown(s: State) {
    (s.action.Moving? || s.action.Resize?) && s.selected.Some? ==> s.selected.value.Grabbed?
  }

  /** `handleMouseMove`. The selection tool's cursor update (lines 236-241)
      changes no state. */
  function MouseMove(s: State, cfg: Config, x: int, y: int, geo: Geometry): (r: Outcome)
    requires OffsetsKnown(s)
    ensures r.state.action == s.action && r.state.selected == s.selected && r.state.isDrawing == s.isDrawing
    ensures s.action.Idle? ==> r == Done(s)
    ensures s.action.Sketching? && !s.isDrawing ==> r == Done(s)
    ensures !s.action.Erasing? ==> r.state.path == s.path
    ensures !s.action.Sketching? ==> r.state.points == s.points
    ensures Consistent(s) ==> Consistent(r.state)
    ensures Consistent(s) && r.Threw? ==> s.action.Erasing?
  {
    match s.action
    case Erasing => CheckPresent(s, x, y)
    case Sketching => if s.isDrawing then ExtendSketch(s, x, y) else Done(s)
    case Drawing => StretchShape(s, cfg, x, y)
    case Moving => MoveSelection(s, x, y)
    case Resize => ResizeSelection(s, cfg, x, y, geo)
    case Idle => Done(s)
  }

  // ---------------------------------------------------------------------
  // Mouse-up (lines 310-331)
  // ---------------------------------------------------------------------

  /** The element the selection's id indexes, when that slot holds one */
  function SelectedSlot(s: State): Option<Element> {
    if s.selected.Some? && s.selected.value.elem.id < |s.elements| && s.elements[s.selected.value.elem.id].Filled?
    then Some(s.elements[s.selected.value.elem.id].value)
    else None
  }

  /** After resizing (lines 311-315): read the element at index
      `selectedElement.id`, normalise it and write it back at that element's
      own `id` (the two differ once an erase has shifted the list), keeping its
      width and colour. No selection, or no element at that index, throws
      before the action is reset. */
  function FinishResize(s: State, geo: Geometry): (r: Outcome)
    ensures SelectedSlot(s).None? ==> r == Threw(s)
    ensures SelectedSlot(s).Some? ==>
      && r.Done?
      && var e := SelectedSlot(s).value;
      && var c := geo.adjust(e);
      && r.state == s.(action := Idle, elements := r.state.elements)
      && SpreadWrite(s.elements, r.state.elements, e.id)
      && r.state.elements[e.id] == Filled(Element(e.id, c.x1, c.y1, c.x2, c.y2, e.kind, e.strokeWidth, e.strokeColor))
  {
    match SelectedSlot(s)
    case None => Threw(s)
    case Some(e) =>
      var c := geo.adjust(e);
      Done(s.(action := Idle, elements := UpdateElement(s.elements, e.id, c.x1, c.y1, c.x2, c.y2, e.kind, e.strokeWidth, e.strokeColor)))
  }

  /** After drawing (lines 316-320): normalise the drawn element, keeping its
      width and taking the current colour */
  function FinishDrawing(s: State, cfg: Config, geo: Geometry): (r: Outcome)
    ensures SelectedSlot(s).None? ==> r == Threw(s)
    ensures SelectedSlot(s).Some? ==>
      && r.Done?
      && var e := SelectedSlot(s).value;
      && var c := geo.adjust(e);
      && r.state == s.(action := Idle, elements := r.state.elements)
      && SpreadWrite(s.elements, r.state.elements, e.id)
      && r.state.elements[e.id] == Filled(Element(e.id, c.x1, c.y1, c.x2, c.y2, e.kind, e.strokeWidth, cfg.hex))
  {
    match SelectedSlot(s)
    case None => Threw(s)
    case Some(e) =>
      var c := geo.adjust(e);
      Done(s.(action := Idle, elements := UpdateElement(s.elements, e.id, c.x1, c.y1, c.x2, c.y2, e.kind, e.strokeWidth, cfg.hex)))
  }

  /** After sketching (lines 321-328): the buffer becomes one new stroke at the
      end of the path, and the buffer is emptied */
  function FinishSketch(s: State): (r: State)
    ensures |r.path| == |s.path| + 1 && r.path[..|s.path|] == s.path && Last(r.path) == s.points
    ensures r.points == [] && !r.isDrawing && r.action == Idle
    ensures r.elements == s.elements && r.selected == s.selected
  {
    s.(action := Idle, points := [], path := s.path + [s.points], isDrawing := false)
  }

  /** `handleMouseUp`. The selection is never cleared. */
  function MouseUp(s: State, cfg: Config, geo: Geometry): (r: Outcome)
    ensures r.Done? ==> r.state.action == Idle
    ensures r.Threw? ==> r.state == s && (s.action.Resize? || s.action.Drawing?)
    ensures !s.action.Sketching? ==> r.state.path == s.path && r.state.points == s.points && r.state.isDrawing == s.isDrawing
    ensures !s.action.Resize? && !s.action.Drawing? ==> r.state.elements == s.elements
    ensures (s.action.Resize? || s.action.Drawing?) && r.Done? ==>
      && SelectedSlot(s).Some?
      && var e := SelectedSlot(s).value;
      && var c := geo.adjust(e);
      && SpreadWrite(s.elements, r.state.elements, e.id)
      && r.state.elements[e.id] == Filled(Element(e.id, c.x1, c.y1, c.x2, c.y2, e.kind, e.strokeWidth,
                                                  if s.action.Resize? then e.strokeColor else cfg.hex))
    ensures r.state.selected == s.selected
    ensures Consistent(s) ==> Consistent(r.state)
    ensures Consistent(s) && !s.action.Resize? ==> r.Done?
  {
    match s.action
    case Resize => FinishResize(s, geo)
    case Drawing => FinishDrawing(s, cfg, geo)
    case Sketching => Done(FinishSketch(s))
    case _ => Done(s.(action := Idle))
  }

  // ---------------------------------------------------------------------
  // The states the handlers can reach
  // ---------------------------------------------------------------------

  /** While drawing, the last slot holds the element being drawn and the
      selection is that element as created */
  predicate DrawingTarget(s: State) {
    && |s.elements| > 0 && Last(s.elements).Filled?
    && s.selected.Some? && s.selected.value.Created?
    && s.selected.value.elem.id == |s.elements| - 1
  }

  /** What every reachable state satisfies */
  predicate Consistent(s: State) {
    && (s.action.Moving? || s.action.Resize? ==> s.selected.Some? && s.selected.value.Grabbed?)
    && (s.action.Sketching? ==> |s.points| > 0)
    && (s.action.Drawing? ==> DrawingTarget(s))
  }

  /** One pointer event with the toolbar settings current at that moment */
  datatype Event = Down(cfg: Config, x: int, y: int) | Move(cfg: Config, x: int, y: int) | Up(cfg: Config)

  function Step(s: State, ev: Event, geo: Geometry): (r: Outcome)
    requires Consistent(s)
    ensures Consistent(r.state)
  {
    match ev
    case Down(cfg, x, y) => MouseDown(s, cfg, x, y, geo)
    case Move(cfg, x, y) => MouseMove(s, cfg, x, y, geo)
    case Up(cfg) => MouseUp(s, cfg, geo)
  }

  /** A sequence of events; a handler that throws leaves its state behind and
      the next event is handled from there */
  function Run(s: State, events: seq<Event>, geo: Geometry): (r: State)
    requires Consistent(s)
    ensures Consistent(r)
    decreases |events|
  {
    if |events| == 0 then s
    else Run(Step(s, events[0], geo).state, events[1..], geo)
  }
}

=== FILE: board_properties.dfy ===
/**
 Properties of the whiteboard handlers over whole gestures: a freehand
 stroke, a shape drawn by dragging, a selection dragged across the board,
 and what happens when an element's id no longer matches its index.
 */
module BoardProperties {
  import opened Optional
  import opened JsArray
  import opened Scene
  import opened Board

  /** A pointer position */
  datatype Pos = Pos(x: int, y: int)

  /** The mouse-move events of a drag through `pts` */
  function Drag(cfg: Config, pts: seq<Pos>): (evs: seq<Event>)
    ensures |evs| == |pts|
  {
    seq(|pts|, i requires 0 <= i < |pts| => Move(cfg, pts[i].x, pts[i].y))
  }

  /** Running two event sequences one after the other */
  lemma {:induction false} RunAppend(s: State, a: seq<Event>, b: seq<Event>, geo: Geometry)
    requires Consistent(s)
    ensures Run(s, a + b, geo) == Run(Run(s, a, geo), b, geo)
    decreases |a|
  {
    if |a| == 0 {
      assert a + b == b;
    } else {
      assert (a + b)[0] == a[0];
      assert (a + b)[1..] == a[1..] + b;
      RunAppend(Step(s, a[0], geo).state, a[1..], b, geo);
    }
  }

  // ---------------------------------------------------------------------
  // A freehand stroke
  // ---------------------------------------------------------------------

  /** The points a sketch drag appends after `prev`: the first one carries
      `prev`'s `newColour`/`newLinewidth` under the names `colour`/`linewidth`;
      every later one finds those fields undefined on its predecessor. */
  function Trail(prev: Point, pts: seq<Pos>): (t: seq<Point>)
    ensures |t| == |pts|
  {
    seq(|pts|, i requires 0 <= i < |pts| =>
      Point(pts[i].x, pts[i].y,
            if i == 0 then StylePlain(NewColour(prev), NewLinewidth(prev)) else StylePlain(None, None),
            prev.transparency))
  }

  /** While sketching, each move appends one point and nothing else changes */
  lemma {:induction false} SketchDrag(s: State, cfg: Config, pts: seq<Pos>, geo: Geometry)
    requires Consistent(s) && s.action.Sketching? && s.isDrawing
    ensures Run(s, Drag(cfg, pts), geo) == s.(points := s.points + Trail(Last(s.points), pts))
    decreases |pts|
  {
    if |pts| > 0 {
      var prev := Last(s.points);
      var s1 := MouseMove(s, cfg, pts[0].x, pts[0].y, geo).state;
      var p := Point(pts[0].x, pts[0].y, StylePlain(NewColour(prev), NewLinewidth(prev)), prev.transparency);
      assert s1 == s.(points := s.points + [p]);
      assert Drag(cfg, pts)[1..] == Drag(cfg, pts[1..]);
      SketchDrag(s1, cfg, pts[1..], geo);
      assert Last(s1.points) == p;
      assert [p] + Trail(p, pts[1..]) == Trail(prev, pts);
      assert s1.points + Trail(p, pts[1..]) == s.points + Trail(prev, pts);
    }
  }

  /** Pencil or brush down, a drag through `pts`, and up from an empty buffer
      commit one stroke of |pts| + 1 points at the end of the path. Only its
      first point has a defined `newColour`; the one after it has a defined
      `colour`, the rest have neither; all share the tool's transparency. */
  lemma FreehandStroke(s: State, cfg: Config, x0: int, y0: int, pts: seq<Pos>, geo: Geometry)
    requires Consistent(s) && s.points == []
    requires cfg.tool.Pencil? || cfg.tool.Brush?
    ensures var r := Run(s, [Down(cfg, x0, y0)] + Drag(cfg, pts) + [Up(cfg)], geo);
      && r.action == Idle && r.points == [] && !r.isDrawing
      && |r.path| == |s.path| + 1 && r.path[..|s.path|] == s.path
      && var stroke := Last(r.path);
      && |stroke| == |pts| + 1
      && stroke[0] == Point(x0, y0, StyleNew(cfg.hex, cfg.width), Transparency(cfg.tool))
      && (forall i :: 1 <= i < |stroke| ==> stroke[i].clientX == pts[i - 1].x && stroke[i].clientY == pts[i - 1].y)
      && (forall i :: 1 <= i < |stroke| ==> NewColour(stroke[i]).None? && NewLinewidth(stroke[i]).None?)
      && (|pts| > 0 ==> stroke[1].style == StylePlain(Some(cfg.hex), Some(cfg.width)))
      && (forall i :: 2 <= i < |stroke| ==> stroke[i].style == StylePlain(None, None))
      && (forall i :: 0 <= i < |stroke| ==> stroke[i].transparency == Transparency(cfg.tool))
  {
    var first := Point(x0, y0, StyleNew(cfg.hex, cfg.width), Transparency(cfg.tool));
    FreehandRun(s, cfg, x0, y0, pts, geo);
    var stroke := [first] + Trail(first, pts);
    assert Last(Run(s, [Down(cfg, x0, y0)] + Drag(cfg, pts) + [Up(cfg)], geo).path) == stroke;
  }

  /** The run behind `FreehandStroke`: the buffer the drag builds is committed */
  lemma FreehandRun(s: State, cfg: Config, x0: int, y0: int, pts: seq<Pos>, geo: Geometry)
    requires Consistent(s) && s.points == []
    requires cfg.tool.Pencil? || cfg.tool.Brush?
    ensures var first := Point(x0, y0, StyleNew(cfg.hex, cfg.width), Transparency(cfg.tool));
      Run(s, [Down(cfg, x0, y0)] + Drag(cfg, pts) + [Up(cfg)], geo)
        == FinishSketch(StartSketch(s, cfg, x0, y0).(points := [first] + Trail(first, pts)))
  {
    var first := Point(x0, y0, StyleNew(cfg.hex, cfg.width), Transparency(cfg.tool));
    var s1 := StartSketch(s, cfg, x0, y0);
    assert Run(s, [Down(cfg, x0, y0)], geo) == s1;
    SketchDrag(s1, cfg, pts, geo);
    var s2 := s1.(points := [first] + Trail(first, pts));
    assert Run(s1, Drag(cfg, pts), geo) == s2;
    assert Run(s2, [Up(cfg)], geo) == FinishSketch(s2);
    RunAppend(s, [Down(cfg, x0, y0)], Drag(cfg, pts), geo);
    RunAppend(s, [Down(cfg, x0, y0)] + Drag(cfg, pts), [Up(cfg)], geo);
  }

  // ---------------------------------------------------------------------
  // A shape drawn by dragging
  // ---------------------------------------------------------------------

  /** While drawing, the last element's far corner follows the pointer */
  lemma {:induction false} ShapeDrag(s: State, cfg: Config, pts: seq<Pos>, geo: Geometry)
    requires Consistent(s) && s.action.Drawing? && Dense(s.elements) && |pts| > 0
    ensures var i, a := |s.elements| - 1, Last(s.elements).value;
      Run(s, Drag(cfg, pts), geo)
        == s.(elements := s.elements[i := Filled(Element(i, a.x1, a.y1, Last(pts).x, Last(pts).y, cfg.tool, Some(cfg.shapeWidth), cfg.hex))])
    decreases |pts|
  {
    var i, a := |s.elements| - 1, Last(s.elements).value;
    var s1 := MouseMove(s, cfg, pts[0].x, pts[0].y, geo).state;
    var e1 := Element(i, a.x1, a.y1, pts[0].x, pts[0].y, cfg.tool, Some(cfg.shapeWidth), cfg.hex);
    assert s1.elements == s.elements[i := Filled(e1)];
    assert Drag(cfg, pts)[1..] == Drag(cfg, pts[1..]);
    if |pts| > 1 {
      ShapeDrag(s1, cfg, pts[1..], geo);
      assert Last(pts[1..]) == Last(pts);
      assert s1.elements[i := Filled(Element(i, a.x1, a.y1, Last(pts).x, Last(pts).y, cfg.tool, Some(cfg.shapeWidth), cfg.hex))]
          == s.elements[i := Filled(Element(i, a.x1, a.y1, Last(pts).x, Last(pts).y, cfg.tool, Some(cfg.shapeWidth), cfg.hex))];
    }
  }

  /** A shape tool's down at (x0, y0), a drag through `pts` and up add one
      element at the end of the list: anchored at the click, its far corner at
      the last point of the drag, normalised once by `adjustElementCoordinates`
      on release. */
  lemma ShapeLifecycle(s: State, cfg: Config, x0: int, y0: int, pts: seq<Pos>, geo: Geometry)
    requires Consistent(s) && cfg.tool.Shape? && |pts| > 0
    ensures var r := Run(s, [Down(cfg, x0, y0)] + Drag(cfg, pts) + [Up(cfg)], geo);
      var n := |s.elements|;
      var drawn := Element(n, x0, y0, Last(pts).x, Last(pts).y, cfg.tool, Some(cfg.shapeWidth), cfg.hex);
      var c := geo.adjust(drawn);
      && r.action == Idle
      && |r.elements| == n + 1
      && r.elements[n] == Filled(Element(n, c.x1, c.y1, c.x2, c.y2, cfg.tool, Some(cfg.shapeWidth), cfg.hex))
      && (forall i :: 0 <= i < n && !s.elements[i].Hole? ==> r.elements[i] == s.elements[i])
      && r.path == s.path && r.points == s.points
  {
    var n := |s.elements|;
    var s1 := StartShape(s, cfg, x0, y0);
    assert Run(s, [Down(cfg, x0, y0)], geo) == s1;
    ShapeDrag(s1, cfg, pts, geo);
    var drawn := Element(n, x0, y0, Last(pts).x, Last(pts).y, cfg.tool, Some(cfg.shapeWidth), cfg.hex);
    var s2 := s1.(elements := s1.elements[n := Filled(drawn)]);
    assert Run(s1, Drag(cfg, pts), geo) == s2;
    assert SelectedSlot(s2) == Some(drawn);
    assert Run(s2, [Up(cfg)], geo) == MouseUp(s2, cfg, geo).state;
    RunAppend(s, [Down(cfg, x0, y0)], Drag(cfg, pts), geo);
    RunAppend(s, [Down(cfg, x0, y0)] + Drag(cfg, pts), [Up(cfg)], geo);
  }

  // ---------------------------------------------------------------------
  // Dragging a selection
  // ---------------------------------------------------------------------

  /** `updateElement` at an index inside a list without holes replaces that
      one slot: the count is unchanged and every other slot is untouched */
  lemma UpdateElementInPlace(elements: seq<Slot<Element>>, index: nat, x1: int, y1: int, x2: int, y2: int,
                             kind: Tool, strokeWidth: Option<int>, strokeColor: string)
    requires Dense(elements) && index < |elements|
    ensures UpdateElement(elements, index, x1, y1, x2, y2, kind, strokeWidth, strokeColor)
         == elements[index := Filled(Element(index, x1, y1, x2, y2, kind, strokeWidth, strokeColor))]
  {
  }

  /** Grabbing an element inside and moving the pointer from (cx, cy) to
      (px, py) translates it by (px - cx, py - cy), keeping its size; release
      leaves it where it is, without normalising it */
  lemma DragTranslates(s: State, cfg: Config, e: Element, cx: int, cy: int, px: int, py: int, geo: Geometry)
    requires Consistent(s) && cfg.tool.Selection?
    requires geo.elementAt(cx, cy, s.elements) == Some(Hit(e, "inside"))
    ensures var r := Run(s, [Down(cfg, cx, cy), Move(cfg, px, py), Up(cfg)], geo);
      var dx, dy := px - cx, py - cy;
      && r.action == Idle
      && e.id < |r.elements| && |s.elements| <= |r.elements|
      && r.elements[e.id] == Filled(Element(e.id, e.x1 + dx, e.y1 + dy, e.x2 + dx, e.y2 + dy, e.kind, None, e.strokeColor))
      && (forall j :: 0 <= j < |s.elements| && j != e.id && !s.elements[j].Hole? ==> r.elements[j] == s.elements[j])
  {
    var s1 := GrabAt(s, cx, cy, geo);
    assert s1.action == Moving;
    var s2 := MoveSelection(s1, px, py).state;
    var evs := [Down(cfg, cx, cy), Move(cfg, px, py), Up(cfg)];
    assert evs[1..] == [Move(cfg, px, py), Up(cfg)];
    assert evs[1..][1..] == [Up(cfg)];
    assert Step(s, evs[0], geo).state == s1;
    assert Step(s1, evs[1], geo).state == s2;
    assert Step(s2, evs[2], geo).state == s2.(action := Idle);
    assert Run(s2, [Up(cfg)], geo) == Run(s2.(action := Idle), [], geo);
    assert Run(s, evs, geo) == s2.(action := Idle);
  }

  /** Grabbing an element by a handle (any position but "inside"), moving the
      pointer to (px, py) and releasing rewrites the element's slot with the
      corners `resizedCoordinates` gives for the handle, normalised once by
      `adjustElementCoordinates`, in the toolbar's width and colour; every
      other element is kept */
  lemma ResizeGesture(s: State, cfg: Config, e: Element, pos: string, cx: int, cy: int, px: int, py: int, geo: Geometry)
    requires Consistent(s) && cfg.tool.Selection? && pos != "inside"
    requires geo.elementAt(cx, cy, s.elements) == Some(Hit(e, pos))
    ensures var r := Run(s, [Down(cfg, cx, cy), Move(cfg, px, py), Up(cfg)], geo);
      var c := geo.resized(px, py, pos, CornersOf(e));
      var a := geo.adjust(Element(e.id, c.x1, c.y1, c.x2, c.y2, e.kind, Some(cfg.shapeWidth), cfg.hex));
      && r.action == Idle
      && |r.elements| == (if e.id < |s.elements| then |s.elements| else e.id + 1)
      && r.elements[e.id] == Filled(Element(e.id, a.x1, a.y1, a.x2, a.y2, e.kind, Some(cfg.shapeWidth), cfg.hex))
      && (forall j :: 0 <= j < |s.elements| && j != e.id && !s.elements[j].Hole? ==> r.elements[j] == s.elements[j])
      && r.path == s.path && r.points == s.points
  {
    var s1 := GrabAt(s, cx, cy, geo);
    assert s1.action == Resize;
    var s2 := ResizeSelection(s1, cfg, px, py, geo).state;
    var s3 := FinishResize(s2, geo).state;
    var evs := [Down(cfg, cx, cy), Move(cfg, px, py), Up(cfg)];
    assert evs[1..] == [Move(cfg, px, py), Up(cfg)];
    assert evs[1..][1..] == [Up(cfg)];
    assert Step(s, evs[0], geo).state == s1;
    assert Step(s1, evs[1], geo).state == s2;
    assert Step(s2, evs[2], geo).state == s3;
    assert Run(s2, [Up(cfg)], geo) == Run(s3, [], geo);
    assert Run(s, evs, geo) == s3;
  }

  /** A move depends only on the captured selection and the pointer, so
      repeating it changes nothing more than the copy's hole-to-undefined
      conversion; with no holes, and an id within reach, it is idempotent */
  lemma MoveIdempotent(s: State, cfg: Config, x: int, y: int, geo: Geometry)
    requires OffsetsKnown(s) && s.action.Moving? && s.selected.Some?
    ensures var r1 := MouseMove(s, cfg, x, y, geo);
      && MouseMove(r1.state, cfg, x, y, geo) == Done(r1.state.(elements := Spread(r1.state.elements)))
      && (Dense(s.elements) && s.selected.value.elem.id <= |s.elements| ==> MouseMove(r1.state, cfg, x, y, geo) == r1)
  {
    var r1 := MouseMove(s, cfg, x, y, geo);
    var r2 := MouseMove(r1.state, cfg, x, y, geo);
    assert r2.state.elements == Spread(r1.state.elements);
    if Dense(s.elements) && s.selected.value.elem.id <= |s.elements| {
      assert Spread(r1.state.elements) == r1.state.elements;
    }
  }

  // ---------------------------------------------------------------------
  // Ids that no longer match indices
  // ---------------------------------------------------------------------

  /** Two rectangles; erasing the first compacts the list but keeps the
      second's id 1 */
  function TwoRects(): (s: State)
    ensures Consistent(s)
  {
    Initial().(elements := [Filled(Element(0, 0, 0, 10, 10, Shape("rectangle"), Some(1), "#000000")),
                            Filled(Element(1, 20, 20, 30, 30, Shape("rectangle"), Some(1), "#000000"))])
  }

  /** After the erase, grabbing the survivor by a corner and releasing it
      without moving throws (`elements[1]` is undefined), so the action stays
      "resize" */
  lemma StaleIdStallsResize(eraser: Config, select: Config, geo: Geometry)
    requires eraser.tool.Eraser? && select.tool.Selection?
    requires geo.elementAt(20, 20, [TwoRects().elements[1]]) == Some(Hit(TwoRects().elements[1].value, "tl"))
    ensures var erased := MouseDown(TwoRects(), eraser, 5, 5, geo);
      && erased == Done(TwoRects().(action := Erasing, elements := [TwoRects().elements[1]]))
      && var grabbed := MouseDown(erased.state, select, 20, 20, geo);
      && grabbed.state.action == Resize
      && MouseUp(grabbed.state, select, geo) == Threw(grabbed.state)
  {
    var b := TwoRects().elements[1];
    EraseFirstRect(eraser, geo);
    var erased := TwoRects().(action := Erasing, elements := [b]);
    var grabbed := GrabAt(erased, 20, 20, geo);
    assert grabbed.action == Resize && SelectedSlot(grabbed).None?;
  }

  /** The eraser at (5, 5) removes the first rectangle only; the second
      keeps its id 1 at index 0 */
  lemma EraseFirstRect(eraser: Config, geo: Geometry)
    requires eraser.tool.Eraser?
    ensures MouseDown(TwoRects(), eraser, 5, 5, geo)
         == Done(TwoRects().(action := Erasing, elements := [TwoRects().elements[1]]))
  {
    var s := TwoRects();
    EraserScan.EraseOneElement(s.elements, 0, 5, 5);
    assert s.elements[1..] == [s.elements[1]];
    assert s.path == [];
  }

  /** After the erase, dragging the survivor writes the moved copy at index 1
      and leaves the original at index 0: the element is shown twice */
  lemma StaleIdDuplicatesOnMove(eraser: Config, select: Config, geo: Geometry)
    requires eraser.tool.Eraser? && select.tool.Selection?
    requires geo.elementAt(25, 25, [TwoRects().elements[1]]) == Some(Hit(TwoRects().elements[1].value, "inside"))
    ensures var erased := MouseDown(TwoRects(), eraser, 5, 5, geo).state;
      var grabbed := MouseDown(erased, select, 25, 25, geo).state;
      var moved := MouseMove(grabbed, select, 35, 35, geo).state;
      moved.elements == [TwoRects().elements[1], Filled(Element(1, 30, 30, 40, 40, Shape("rectangle"), None, "#000000"))]
  {
    var b := TwoRects().elements[1];
    EraseFirstRect(eraser, geo);
    var erased := TwoRects().(action := Erasing, elements := [b]);
    var grabbed := GrabAt(erased, 25, 25, geo);
    assert grabbed.action == Moving && grabbed.selected == Some(Grabbed(b.value, "inside", 5, 5));
    var copy := Element(1, 30, 30, 40, 40, Shape("rectangle"), None, "#000000");
    assert Spread([b]) == [b];
    assert Assign([b], 1, copy) == [b, Filled(copy)];
  }

  /** After the erase, grabbing the survivor by a corner, moving and releasing
      completes: the move writes the resized copy at index 1, which the release
      then finds and normalises, while the original stays at index 0 */
  lemma StaleIdResizeDuplicates(eraser: Config, select: Config, geo: Geometry, px: int, py: int)
    requires eraser.tool.Eraser? && select.tool.Selection?
    requires geo.elementAt(20, 20, [TwoRects().elements[1]]) == Some(Hit(TwoRects().elements[1].value, "tl"))
    ensures var erased := MouseDown(TwoRects(), eraser, 5, 5, geo).state;
      var grabbed := MouseDown(erased, select, 20, 20, geo).state;
      var moved := MouseMove(grabbed, select, px, py, geo).state;
      var up := MouseUp(moved, select, geo);
      && up.Done? && up.state.action == Idle
      && |up.state.elements| == 2
      && up.state.elements[0] == TwoRects().elements[1]
      && up.state.elements[1].Filled? && up.state.elements[1].value.id == 1
  {
    var b := TwoRects().elements[1];
    EraseFirstRect(eraser, geo);
    var erased := TwoRects().(action := Erasing, elements := [b]);
    var grabbed := GrabAt(erased, 20, 20, geo);
    assert grabbed.action == Resize && grabbed.selected == Some(Grabbed(b.value, "tl", 0, 0));
    var moved := ResizeSelection(grabbed, select, px, py, geo).state;
    assert |moved.elements| == 2 && moved.elements[0] == b && moved.elements[1].Filled?;
    assert SelectedSlot(moved) == Some(moved.elements[1].value);
  }
}

=== FILE: eraser.dfy ===
/**
 The eraser scan `checkPresent`. The source removes entries with `splice`
 while `forEach` walks the same array: `forEach` fixes its bound to the
 length at the start and visits an index only while it still exists, so the
 entry that shifts into a just-emptied index is never tested. The methods
 below follow that loop step by step; the functions are structural
 definitions of the same result, and each method is proved equal to its
 function.
 */
module EraserScan {
  import opened JsArray
  import opened Scene

  /** Half-width of the open box around a stroke point that the eraser hits */
  const Reach: int := 10

  /** A stroke point is hit when the pointer is strictly within `Reach` of it on both axes */
  predicate NearPoint(p: Point, x: int, y: int) {
    && y < p.clientY + Reach && y > p.clientY - Reach
    && x < p.clientX + Reach && x > p.clientX - Reach
  }

  /** An element is hit when the pointer lies in its closed box [x1,x2] x [y1,y2] */
  predicate InBox(e: Element, x: int, y: int) {
    x >= e.x1 && x <= e.x2 && y >= e.y1 && y <= e.y2
  }

  /** Some point of the stroke is hit */
  predicate Touches(stroke: Stroke, x: int, y: int) {
    exists i :: 0 <= i < |stroke| && NearPoint(stroke[i], x, y)
  }

  /** Some stroke of the path is hit */
  predicate TouchesAny(path: seq<Stroke>, x: int, y: int) {
    exists k :: 0 <= k < |path| && Touches(path[k], x, y)
  }

  /** Some filled slot holds an element whose box contains the pointer */
  predicate BoxesAny(elems: seq<Slot<Element>>, x: int, y: int) {
    exists k :: 0 <= k < |elems| && elems[k].Filled? && InBox(elems[k].value, x, y)
  }

  /** How many points of the stroke are hit: each one runs `splice(index, 1)` once */
  function HitCount(stroke: Stroke, x: int, y: int): (n: nat)
    ensures n <= |stroke|
    ensures n == 0 <==> !Touches(stroke, x, y)
    decreases |stroke|
  {
    if |stroke| == 0 then 0
    else
      var init := stroke[..|stroke| - 1];
      assert forall i :: 0 <= i < |init| ==> init[i] == stroke[i];
      HitCount(init, x, y) + (if NearPoint(stroke[|stroke| - 1], x, y) then 1 else 0)
  }

  /** `HitCount` at a fixed pointer, as a function of the stroke */
  function Hits(x: int, y: int): Stroke -> nat {
    stroke => HitCount(stroke, x, y)
  }

  /** The entries a splice-during-forEach scan leaves, where visiting an entry
      `e` runs `splice(index, 1)` `count(e)` times. The visited entry and the
      `count(e) - 1` entries after it are removed; the entry that then slides
      into the visited index is kept untested, and the scan goes on after it. */
  function SweepBy<T>(a: seq<T>, count: T -> nat): (r: seq<T>)
    ensures |r| <= |a|
    decreases |a|
  {
    if |a| == 0 then []
    else
      var m := Removed(a, count);
      if m == |a| then []
      else [a[m]] + SweepBy(a[m + 1..], count)
  }

  /** How many entries, from the visited one on, the splices of one visit remove */
  function Removed<T>(tail: seq<T>, count: T -> nat): (m: nat)
    requires |tail| > 0
    ensures m <= |tail|
  {
    if count(tail[0]) < |tail| then count(tail[0]) else |tail|
  }

  /** The strokes left after the scan of lines 130-145 */
  function SweepStrokes(path: seq<Stroke>, x: int, y: int): (r: seq<Stroke>)
    ensures |r| <= |path|
    ensures multiset(r) <= multiset(path)
    ensures Sub(r, path)
    ensures !TouchesAny(path, x, y) ==> r == path
    ensures TouchesAny(path, x, y) ==> |r| < |path|
  {
    SweepByKeeps(path, Hits(x, y));
    SweepByOrdered(path, Hits(x, y));
    if TouchesAny(path, x, y) then
      SweepByShrinks(path, Hits(x, y));
      SweepBy(path, Hits(x, y))
    else
      SweepByIdle(path, Hits(x, y));
      SweepBy(path, Hits(x, y))
  }

  /** The sweep only removes entries */
  lemma {:induction false} SweepByKeeps<T>(a: seq<T>, count: T -> nat)
    ensures multiset(SweepBy(a, count)) <= multiset(a)
    decreases |a|
  {
    if |a| > 0 {
      var m := Removed(a, count);
      if m < |a| {
        SweepByKeeps(a[m + 1..], count);
        assert a == a[..m] + [a[m]] + a[m + 1..];
      }
    }
  }

  /** The sweep keeps the entries it does not remove in their order */
  lemma {:induction false} SweepByOrdered<T>(a: seq<T>, count: T -> nat)
    ensures Sub(SweepBy(a, count), a)
    decreases |a|
  {
    if |a| > 0 {
      var m := Removed(a, count);
      if m < |a| {
        SweepByOrdered(a[m + 1..], count);
        SubCons(a, m, SweepBy(a[m + 1..], count));
      }
    }
  }

  /** A sweep in which no visit splices leaves the array as it was */
  lemma {:induction false} SweepByIdle<T>(a: seq<T>, count: T -> nat)
    requires forall i :: 0 <= i < |a| ==> count(a[i]) == 0
    ensures SweepBy(a, count) == a
    decreases |a|
  {
    if |a| > 0 {
      assert Removed(a, count) == 0;
      SweepByIdle(a[1..], count);
      assert a == [a[0]] + a[1..];
    }
  }

  /** A sweep over an array with an entry that splices removes something */
  lemma {:induction false} SweepByShrinks<T>(a: seq<T>, count: T -> nat)
    requires exists k :: 0 <= k < |a| && count(a[k]) > 0
    ensures |SweepBy(a, count)| < |a|
    decreases |a|
  {
    var m := Removed(a, count);
    if m == 0 {
      var k :| 0 <= k < |a| && count(a[k]) > 0;
      assert a[1..][k - 1] == a[k];
      SweepByShrinks(a[1..], count);
    }
  }

  /** The outcome of the element scan: the remaining array, and whether the
      scan stopped on an undefined entry (reading `ele.x1` throws a TypeError;
      the splices done before it stay done). */
  datatype Scan = Scan(kept: seq<Slot<Element>>, threw: bool)

  /** `first` followed by a scan's result */
  function Prepend(first: Slot<Element>, r: Scan): Scan {
    Scan([first] + r.kept, r.threw)
  }

  /** The elements a splice-during-forEach scan leaves. A hit element is
      spliced out and the element that slides into its index is kept
      untested; holes are skipped; a visited undefined entry throws. */
  function SweepSlots(a: seq<Slot<Element>>, x: int, y: int): (r: Scan)
    ensures |r.kept| <= |a|
    decreases |a|
  {
    if |a| == 0 then Scan([], false)
    else
      match a[0]
      case Hole => Prepend(Hole, SweepSlots(a[1..], x, y))
      case Undefined => Scan(a, true)
      case Filled(e) =>
        if !InBox(e, x, y) then Prepend(a[0], SweepSlots(a[1..], x, y))
        else if |a| == 1 then Scan([], false)
        else Prepend(a[1], SweepSlots(a[2..], x, y))
  }

  /** The elements left after the scan of lines 146-159, and whether it threw */
  function SweepElements(elems: seq<Slot<Element>>, x: int, y: int): (r: Scan)
    ensures |r.kept| <= |elems|
    ensures multiset(r.kept) <= multiset(elems)
    ensures Sub(r.kept, elems)
    ensures forall e | e in multiset(elems) - multiset(r.kept) :: e.Filled? && InBox(e.value, x, y)
    ensures !BoxesAny(elems, x, y) ==> r.kept == elems
    ensures BoxesAny(elems, x, y) ==> r.threw || |r.kept| < |elems|
    ensures r.threw ==> exists k :: 0 <= k < |elems| && elems[k].Undefined?
    ensures Dense(elems) && (forall k :: 0 <= k < |elems| ==> !elems[k].Undefined?) ==> !r.threw
  {
    SweepSlotsKeeps(elems, x, y);
    SweepSlotsOrdered(elems, x, y);
    SweepSlotsRemovesBoxed(elems, x, y);
    SweepSlotsIdle(elems, x, y);
    SweepSlotsRemoves(elems, x, y);
    SweepSlotsThrows(elems, x, y);
    SweepSlots(elems, x, y)
  }

  /** The element sweep only removes entries */
  lemma {:induction false} SweepSlotsKeeps(a: seq<Slot<Element>>, x: int, y: int)
    ensures multiset(SweepSlots(a, x, y).kept) <= multiset(a)
    decreases |a|
  {
    if |a| > 0 {
      assert a == [a[0]] + a[1..];
      if a[0].Filled? && InBox(a[0].value, x, y) && |a| > 1 {
        SweepSlotsKeeps(a[2..], x, y);
        assert a == [a[0], a[1]] + a[2..];
      } else if !a[0].Undefined? && !(a[0].Filled? && InBox(a[0].value, x, y)) {
        SweepSlotsKeeps(a[1..], x, y);
      }
    }
  }

  /** The element sweep keeps the entries it does not remove in their order */
  lemma {:induction false} SweepSlotsOrdered(a: seq<Slot<Element>>, x: int, y: int)
    ensures Sub(SweepSlots(a, x, y).kept, a)
    decreases |a|
  {
    if |a| > 0 {
      if a[0].Undefined? {
        SubRefl(a);
      } else if !(a[0].Filled? && InBox(a[0].value, x, y)) {
        SweepSlotsOrdered(a[1..], x, y);
        SubCons(a, 0, SweepSlots(a[1..], x, y).kept);
      } else if |a| > 1 {
        SweepSlotsOrdered(a[2..], x, y);
        SubCons(a, 1, SweepSlots(a[2..], x, y).kept);
      }
    }
  }

  /** Every entry of `a` missing from `kept` is an element whose box holds the pointer */
  predicate OnlyBoxedGone(a: seq<Slot<Element>>, kept: seq<Slot<Element>>, x: int, y: int) {
    forall e | e in multiset(a) - multiset(kept) :: e.Filled? && InBox(e.value, x, y)
  }

  /** Every entry the element sweep removes is an element whose box holds the pointer */
  lemma {:induction false} SweepSlotsRemovesBoxed(a: seq<Slot<Element>>, x: int, y: int)
    ensures OnlyBoxedGone(a, SweepSlots(a, x, y).kept, x, y)
    decreases |a|
  {
    if |a| > 0 && !a[0].Undefined? {
      if !(a[0].Filled? && InBox(a[0].value, x, y)) {
        var rest := SweepSlots(a[1..], x, y).kept;
        assert SweepSlots(a, x, y).kept == [a[0]] + rest;
        SweepSlotsRemovesBoxed(a[1..], x, y);
        DropCommonHead(a[0], a[1..], rest);
        assert a == [a[0]] + a[1..];
      } else if |a| > 1 {
        var rest := SweepSlots(a[2..], x, y).kept;
        assert SweepSlots(a, x, y).kept == [a[1]] + rest;
        SweepSlotsRemovesBoxed(a[2..], x, y);
        HitHeadGone(a, rest, x, y);
      }
    } else if |a| > 0 {
      assert multiset(a) - multiset(SweepSlots(a, x, y).kept) == multiset{};
    }
  }

  /** A hit head `a[0]` goes, `a[1]` slides in and is kept, and the rest follows */
  lemma HitHeadGone(a: seq<Slot<Element>>, rest: seq<Slot<Element>>, x: int, y: int)
    requires |a| > 1 && a[0].Filled? && InBox(a[0].value, x, y)
    requires OnlyBoxedGone(a[2..], rest, x, y)
    ensures OnlyBoxedGone(a, [a[1]] + rest, x, y)
  {
    DropCommonHead(a[1], [a[0]] + a[2..], rest);
    DropExtraHead(a[0], a[2..], rest);
    assert multiset(a) == multiset([a[1]] + ([a[0]] + a[2..])) by {
      assert a == [a[0], a[1]] + a[2..];
    }
  }

  /** A head that both arrays share does not count among the removed entries */
  lemma DropCommonHead<T>(h: T, a: seq<T>, kept: seq<T>)
    ensures multiset([h] + a) - multiset([h] + kept) == multiset(a) - multiset(kept)
  {
    assert multiset([h] + a) == multiset{h} + multiset(a);
    assert multiset([h] + kept) == multiset{h} + multiset(kept);
  }

  /** A head only the first array has is at most one more removed entry */
  lemma DropExtraHead<T>(h: T, a: seq<T>, kept: seq<T>)
    ensures multiset([h] + a) - multiset(kept) <= multiset{h} + (multiset(a) - multiset(kept))
  {
    assert multiset([h] + a) == multiset{h} + multiset(a);
  }

  /** With no element under the pointer, the element sweep removes nothing */
  lemma {:induction false} SweepSlotsIdle(a: seq<Slot<Element>>, x: int, y: int)
    ensures !BoxesAny(a, x, y) ==> SweepSlots(a, x, y).kept == a
    decreases |a|
  {
    if |a| > 0 && !BoxesAny(a, x, y) {
      assert !BoxesAny(a[1..], x, y) by {
        forall k | 0 <= k < |a[1..]|
          ensures !(a[1..][k].Filled? && InBox(a[1..][k].value, x, y))
        {
          assert a[1..][k] == a[k + 1];
        }
      }
      SweepSlotsIdle(a[1..], x, y);
      assert a == [a[0]] + a[1..];
    }
  }

  /** With an element under the pointer, the element sweep removes one unless
      it stops on an undefined entry first */
  lemma {:induction false} SweepSlotsRemoves(a: seq<Slot<Element>>, x: int, y: int)
    ensures BoxesAny(a, x, y) ==> SweepSlots(a, x, y).threw || |SweepSlots(a, x, y).kept| < |a|
    decreases |a|
  {
    if |a| > 0 && BoxesAny(a, x, y) && !a[0].Undefined? && !(a[0].Filled? && InBox(a[0].value, x, y)) {
      var k :| 0 <= k < |a| && a[k].Filled? && InBox(a[k].value, x, y);
      assert a[1..][k - 1] == a[k];
      SweepSlotsRemoves(a[1..], x, y);
    }
  }

  /** The element sweep throws only on an undefined entry, so never on a dense
      array of elements */
  lemma {:induction false} SweepSlotsThrows(a: seq<Slot<Element>>, x: int, y: int)
    ensures SweepSlots(a, x, y).threw ==> exists k :: 0 <= k < |a| && a[k].Undefined?
    ensures Dense(a) && (forall k :: 0 <= k < |a| ==> !a[k].Undefined?) ==> !SweepSlots(a, x, y).threw
    decreases |a|
  {
    if |a| > 0 {
      var hitHere := a[0].Filled? && InBox(a[0].value, x, y);
      if hitHere && |a| > 1 {
        SweepSlotsThrows(a[2..], x, y);
        if SweepSlots(a, x, y).threw {
          var k :| 0 <= k < |a[2..]| && a[2..][k].Undefined?;
          assert a[k + 2].Undefined?;
        }
      } else if !hitHere && !a[0].Undefined? {
        SweepSlotsThrows(a[1..], x, y);
        if SweepSlots(a, x, y).threw {
          var k :| 0 <= k < |a[1..]| && a[1..][k].Undefined?;
          assert a[k + 1].Undefined?;
        }
      }
    }
  }

  /** Lines 130-145: for each stroke index, every hit point of that stroke
      splices the path once at that index. The outer walk fixes its bound `n`
      up front and visits an index only while it exists. */
  method ForEachStroke(path: seq<Stroke>, x: int, y: int) returns (r: seq<Stroke>)
    ensures r == SweepBy(path, Hits(x, y))
    ensures r == SweepStrokes(path, x, y)
  {
    r := path;
    var n := |path|;
    var k := 0;
    while k < n
      invariant |r| <= n
      invariant k <= |r| ==> SweepBy(path, Hits(x, y)) == r[..k] + SweepBy(r[k..], Hits(x, y))
      invariant k > |r| ==> SweepBy(path, Hits(x, y)) == r
    {
      if k < |r| {
        ghost var before := r;
        r := SpliceHits(r, k, r[k], x, y);
        SweepByAdvance(before, k, Hits(x, y));
      }
      k := k + 1;
    }
  }

  /** The outer invariant of `ForEachStroke` carried across one visit at `k` */
  lemma SweepByAdvance<T>(before: seq<T>, k: nat, count: T -> nat)
    requires k < |before|
    ensures var r := before[..k] + before[k..][Removed(before[k..], count)..];
      && (k + 1 <= |r| ==> before[..k] + SweepBy(before[k..], count) == r[..k + 1] + SweepBy(r[k + 1..], count))
      && (k + 1 > |r| ==> before[..k] + SweepBy(before[k..], count) == r)
  {
    var tail := before[k..];
    var m := Removed(tail, count);
    var r := before[..k] + tail[m..];
    if m < |tail| {
      assert r[..k + 1] == before[..k] + [tail[m]];
      assert r[k + 1..] == tail[m + 1..];
    }
  }

  /** The inner callback of lines 131-144 for the stroke at index `k`: every
      hit point splices index `k` again, since the `return` only ends the
      callback for that one point. */
  method SpliceHits(path: seq<Stroke>, k: nat, stroke: Stroke, x: int, y: int) returns (r: seq<Stroke>)
    requires k < |path| && stroke == path[k]
    ensures r == path[..k] + path[k..][Removed(path[k..], Hits(x, y))..]
  {
    r := path;
    var j := 0;
    ghost var tail := path[k..];
    while j < |stroke|
      invariant j <= |stroke|
      invariant r == path[..k] + tail[Min(HitCount(stroke[..j], x, y), |tail|)..]
    {
      HitCountExtend(stroke, j, x, y);
      if NearPoint(stroke[j], x, y) {
        SpliceTail(path[..k], tail, Min(HitCount(stroke[..j], x, y), |tail|));
        r := SpliceOne(r, k);
      }
      j := j + 1;
    }
    assert stroke[..|stroke|] == stroke;
    RemovedHits(tail, x, y);
  }

  /** One visit removes as many entries as the visited stroke has hit points, capped by what is left */
  lemma RemovedHits(tail: seq<Stroke>, x: int, y: int)
    requires |tail| > 0
    ensures Removed(tail, Hits(x, y)) == Min(HitCount(tail[0], x, y), |tail|)
  {
  }

  /** Counting one more point of a stroke adds one exactly when that point is hit */
  lemma HitCountExtend(stroke: Stroke, j: nat, x: int, y: int)
    requires j < |stroke|
    ensures HitCount(stroke[..j + 1], x, y) == HitCount(stroke[..j], x, y) + (if NearPoint(stroke[j], x, y) then 1 else 0)
  {
    assert stroke[..j + 1][..j] == stroke[..j];
  }

  /** Splicing at the visited index `|head|` drops one more entry of the tail, if any is left */
  lemma SpliceTail<T>(head: seq<T>, tail: seq<T>, m: nat)
    requires m <= |tail|
    ensures SpliceOne(head + tail[m..], |head|) == head + tail[Min(m + 1, |tail|)..]
  {
    if m < |tail| {
      assert (head + tail[m..])[..|head|] == head;
      assert (head + tail[m..])[|head| + 1..] == tail[m + 1..];
    } else {
      assert tail[m..] == [];
    }
  }

  function Min(a: nat, b: nat): nat {
    if a < b then a else b
  }

  /** Lines 147-159: the walk over the element list splices out each element
      whose box holds the pointer. It skips holes and visits undefined
      entries, on which reading `ele.x1` throws. */
  method ForEachElement(elems: seq<Slot<Element>>, x: int, y: int) returns (kept: seq<Slot<Element>>, threw: bool)
    ensures Scan(kept, threw) == SweepSlots(elems, x, y)
  {
    kept := elems;
    threw := false;
    var n := |elems|;
    var k := 0;
    while k < n
      invariant |kept| <= n
      invariant k <= |kept| ==> SweepSlots(elems, x, y) == Glue(kept[..k], SweepSlots(kept[k..], x, y))
      invariant k > |kept| ==> SweepSlots(elems, x, y) == Scan(kept, false)
    {
      if k < |kept| {
        if kept[k].Undefined? {
          SweepSlotsStops(kept, k, x, y);
          threw := true;
          return;
        }
        SweepSlotsAdvance(kept, k, x, y);
        kept := VisitSlot(kept, k, x, y);
      }
      k := k + 1;
    }
  }

  /** A visit of `ForEachElement` that throws leaves the array as it stands */
  lemma SweepSlotsStops(a: seq<Slot<Element>>, k: nat, x: int, y: int)
    requires k < |a| && a[k].Undefined?
    ensures Glue(a[..k], SweepSlots(a[k..], x, y)) == Scan(a, true)
  {
    SweepSlotsStep(a, k, x, y);
    assert a == a[..k] + a[k..];
  }

  /** One visit at `k` that does not throw: `splice(index, 1)` when the
      element's box holds the pointer, nothing otherwise */
  function VisitSlot(a: seq<Slot<Element>>, k: nat, x: int, y: int): (r: seq<Slot<Element>>)
    requires k < |a| && !a[k].Undefined?
    ensures |r| <= |a|
  {
    if a[k].Filled? && InBox(a[k].value, x, y) then SpliceOne(a, k) else a
  }

  /** The invariant of `ForEachElement` carried across one visit at `k` that does not throw */
  lemma SweepSlotsAdvance(before: seq<Slot<Element>>, k: nat, x: int, y: int)
    requires k < |before| && !before[k].Undefined?
    ensures var after := VisitSlot(before, k, x, y);
      && (k + 1 <= |after| ==> Glue(before[..k], SweepSlots(before[k..], x, y)) == Glue(after[..k + 1], SweepSlots(after[k + 1..], x, y)))
      && (k + 1 > |after| ==> Glue(before[..k], SweepSlots(before[k..], x, y)) == Scan(after, false))
  {
    if before[k].Filled? && InBox(before[k].value, x, y) {
      SweepSlotsAdvanceHit(before, k, x, y);
    } else {
      SweepSlotsStep(before, k, x, y);
      assert before[..k + 1] == before[..k] + [before[k]];
    }
  }

  /** `SweepSlotsAdvance` when the visited element is spliced out */
  lemma SweepSlotsAdvanceHit(before: seq<Slot<Element>>, k: nat, x: int, y: int)
    requires k < |before| && before[k].Filled? && InBox(before[k].value, x, y)
    ensures var after := SpliceOne(before, k);
      && (k + 1 <= |after| ==> Glue(before[..k], SweepSlots(before[k..], x, y)) == Glue(after[..k + 1], SweepSlots(after[k + 1..], x, y)))
      && (k + 1 > |after| ==> Glue(before[..k], SweepSlots(before[k..], x, y)) == Scan(after, false))
  {
    SweepSlotsStep(before, k, x, y);
    var after := SpliceOne(before, k);
    if k + 1 < |before| {
      assert after[k + 1..] == before[k + 2..];
      assert after[..k + 1] == before[..k] + [before[k + 1]];
    } else {
      assert after == before[..k];
    }
  }

  /** One visit of `ForEachElement`, stated on the structural definition */
  lemma SweepSlotsStep(a: seq<Slot<Element>>, k: nat, x: int, y: int)
    requires k < |a|
    ensures a[k].Undefined? ==> SweepSlots(a[k..], x, y) == Scan(a[k..], true)
    ensures a[k].Hole? || (a[k].Filled? && !InBox(a[k].value, x, y)) ==>
      SweepSlots(a[k..], x, y) == Prepend(a[k], SweepSlots(a[k + 1..], x, y))
    ensures a[k].Filled? && InBox(a[k].value, x, y) && k + 1 < |a| ==>
      SweepSlots(a[k..], x, y) == Prepend(a[k + 1], SweepSlots(a[k + 2..], x, y))
    ensures a[k].Filled? && InBox(a[k].value, x, y) && k + 1 == |a| ==>
      SweepSlots(a[k..], x, y) == Scan([], false)
  {
    var tail := a[k..];
    assert tail[0] == a[k] && tail[1..] == a[k + 1..];
    if k + 1 < |a| {
      assert tail[1] == a[k + 1] && tail[2..] == a[k + 2..];
    }
  }

  /** `prefix` followed by a scan's result */
  function Glue(prefix: seq<Slot<Element>>, r: Scan): Scan {
    Scan(prefix + r.kept, r.threw)
  }

  // ---------------------------------------------------------------------
  // What one erase does to the strokes and the elements
  // ---------------------------------------------------------------------

  /** When exactly one entry splices, and only once, the sweep removes exactly that entry */
  lemma {:induction false} SweepByOne<T>(a: seq<T>, count: T -> nat, k: nat)
    requires k < |a| && count(a[k]) == 1
    requires forall j :: 0 <= j < |a| && j != k ==> count(a[j]) == 0
    ensures SweepBy(a, count) == a[..k] + a[k + 1..]
    decreases k
  {
    if k == 0 {
      SweepByOneAtHead(a, count);
    } else {
      SweepByPassesHead(a, count);
      SweepByOne(a[1..], count, k - 1);
      assert a[..k] == [a[0]] + a[1..][..k - 1];
      assert a[k + 1..] == a[1..][k..];
    }
  }

  /** A head entry that does not splice is kept, and the sweep goes on after it */
  lemma SweepByPassesHead<T>(a: seq<T>, count: T -> nat)
    requires |a| > 0 && count(a[0]) == 0
    ensures SweepBy(a, count) == [a[0]] + SweepBy(a[1..], count)
  {
  }

  /** A head entry that splices once, followed by entries that do not */
  lemma SweepByOneAtHead<T>(a: seq<T>, count: T -> nat)
    requires |a| > 0 && count(a[0]) == 1
    requires forall j :: 0 < j < |a| ==> count(a[j]) == 0
    ensures SweepBy(a, count) == a[1..]
  {
    if |a| > 1 {
      assert forall j :: 0 <= j < |a[2..]| ==> a[2..][j] == a[j + 2];
      SweepByIdle(a[2..], count);
      assert a[1..] == [a[1]] + a[2..];
    }
  }

  /** Erasing where exactly one stroke has exactly one point in reach removes
      that stroke and nothing else */
  lemma EraseOneStroke(path: seq<Stroke>, k: nat, x: int, y: int)
    requires k < |path| && HitCount(path[k], x, y) == 1
    requires forall j :: 0 <= j < |path| && j != k ==> !Touches(path[j], x, y)
    ensures SweepStrokes(path, x, y) == path[..k] + path[k + 1..]
  {
    SweepByOne(path, Hits(x, y), k);
  }

  /** A head entry that splices twice takes the entry after it too; the third is kept untested */
  lemma SweepByTwoAtHead<T>(a: seq<T>, count: T -> nat)
    requires |a| >= 2 && count(a[0]) == 2
    ensures SweepBy(a, count) == if |a| == 2 then [] else [a[2]] + SweepBy(a[3..], count)
  {
    if |a| > 2 {
      assert a[2..][0] == a[2] && a[2..][1..] == a[3..];
    }
  }

  /** A stroke with two points in reach also removes the stroke after it,
      whether or not that stroke is anywhere near the pointer */
  lemma EraseTakesNeighbour(path: seq<Stroke>, x: int, y: int)
    requires |path| >= 2 && HitCount(path[0], x, y) == 2
    ensures SweepStrokes(path, x, y) == if |path| == 2 then [] else [path[2]] + SweepStrokes(path[3..], x, y)
  {
    SweepByTwoAtHead(path, Hits(x, y));
  }

  /** Two adjacent strokes each with one point in reach: only the first is
      removed, because the second slides into the visited index */
  lemma EraseSkipsNext(path: seq<Stroke>, x: int, y: int)
    requires |path| == 2 && HitCount(path[0], x, y) == 1 && HitCount(path[1], x, y) == 1
    ensures SweepStrokes(path, x, y) == [path[1]]
  {
    assert path[2..] == [];
  }

  /** When exactly one element contains the pointer and nothing is undefined,
      the element scan removes exactly that slot and does not throw */
  lemma EraseOneElement(a: seq<Slot<Element>>, k: nat, x: int, y: int)
    requires k < |a| && a[k].Filled? && InBox(a[k].value, x, y)
    requires forall j :: 0 <= j < |a| && j != k ==> !(a[j].Filled? && InBox(a[j].value, x, y))
    requires forall j :: 0 <= j < |a| ==> !a[j].Undefined?
    ensures SweepElements(a, x, y) == Scan(a[..k] + a[k + 1..], false)
  {
    SweepSlotsOne(a, k, x, y);
  }

  /** `EraseOneElement` on the structural sweep, by induction on `k` */
  lemma {:induction false} SweepSlotsOne(a: seq<Slot<Element>>, k: nat, x: int, y: int)
    requires k < |a| && a[k].Filled? && InBox(a[k].value, x, y)
    requires forall j :: 0 <= j < |a| && j != k ==> !(a[j].Filled? && InBox(a[j].value, x, y))
    requires forall j :: 0 <= j < |a| ==> !a[j].Undefined?
    ensures SweepSlots(a, x, y) == Scan(a[..k] + a[k + 1..], false)
    decreases k
  {
    if k == 0 {
      if |a| > 1 {
        assert !BoxesAny(a[2..], x, y) by {
          forall j | 0 <= j < |a[2..]|
            ensures !(a[2..][j].Filled? && InBox(a[2..][j].value, x, y))
          {
            assert a[2..][j] == a[j + 2];
          }
        }
        SweepSlotsIdle(a[2..], x, y);
        SweepSlotsThrows(a[2..], x, y);
        assert a[1..] == [a[1]] + a[2..];
      }
    } else {
      SweepSlotsOne(a[1..], k - 1, x, y);
      assert a[..k] == [a[0]] + a[1..][..k - 1];
      assert a[k + 1..] == a[1..][k..];
    }
  }

  /** Two adjacent elements under the pointer: only the first is removed */
  lemma EraseSkipsNextElement(a: Element, b: Element, x: int, y: int)
    requires InBox(a, x, y) && InBox(b, x, y)
    ensures SweepElements([Filled(a), Filled(b)], x, y) == Scan([Filled(b)], false)
  {
    assert [Filled(a), Filled(b)][2..] == [];
  }
}

=== FILE: jsarray.dfy ===
/**
 Just enough of JavaScript's array semantics for the whiteboard's element list:
 sparse slots, the spread copy `[...a]`, the index write `a[i] = v` and
 `a.splice(k, 1)`.
 */
module JsArray {

  /** One index of a JavaScript array of objects. A `Hole` has no property at
      that index (forEach skips it); `Undefined` holds the value undefined
      (forEach visits it). */
  datatype Slot<+T> = Hole | Undefined | Filled(value: T)

  /** True when no index of `a` is a hole */
  predicate Dense<T>(a: seq<Slot<T>>) {
    forall i :: 0 <= i < |a| ==> !a[i].Hole?
  }

  /** `[...a]`: the copy reads every index through the array iterator, so a
      hole comes back as an explicit undefined entry. */
  function Spread<T>(a: seq<Slot<T>>): (r: seq<Slot<T>>)
    ensures |r| == |a|
    ensures Dense(r)
    ensures forall i :: 0 <= i < |a| && !a[i].Hole? ==> r[i] == a[i]
    ensures forall i :: 0 <= i < |a| && a[i].Hole? ==> r[i] == Undefined
  {
    seq(|a|, i requires 0 <= i < |a| => if a[i].Hole? then Undefined else a[i])
  }

  /** A run of `n` holes */
  function Holes<T>(n: nat): (r: seq<Slot<T>>)
    ensures |r| == n
    ensures forall i :: 0 <= i < n ==> r[i] == Hole
  {
    seq(n, i => Hole)
  }

  /** `a[index] = v`: inside the array it replaces one slot; past the end it
      grows the array to `index + 1`, leaving holes in between. */
  function Assign<T>(a: seq<Slot<T>>, index: nat, v: T): (r: seq<Slot<T>>)
    ensures |r| == if index < |a| then |a| else index + 1
    ensures r[index] == Filled(v)
    ensures forall i :: 0 <= i < |a| && i != index ==> r[i] == a[i]
    ensures forall i :: |a| <= i < index ==> r[i] == Hole
  {
    if index < |a| then a[index := Filled(v)] else a + Holes(index - |a|) + [Filled(v)]
  }

  /** `r` is the copy `[...a]` with only index `index` written (the value
      written there is not constrained): the array grows to `index + 1` when
      the index is past the end, every other old entry is kept with its holes
      turned into undefined, and the gap past the old end is holes. */
  predicate SpreadWrite<T(==)>(a: seq<Slot<T>>, r: seq<Slot<T>>, index: nat) {
    && |r| == (if index < |a| then |a| else index + 1)
    && (forall i :: 0 <= i < |a| && i != index && !a[i].Hole? ==> r[i] == a[i])
    && (forall i :: 0 <= i < |a| && i != index && a[i].Hole? ==> r[i] == Undefined)
    && (forall i :: |a| <= i < index ==> r[i] == Hole)
  }

  /** `a.splice(k, 1)`: removes the entry at `k` and shifts the tail down one
      place; an index at or past the end removes nothing. */
  function SpliceOne<T>(a: seq<T>, k: nat): (r: seq<T>)
    ensures k < |a| ==> |r| == |a| - 1
    ensures k < |a| ==> forall i :: 0 <= i < k ==> r[i] == a[i]
    ensures k < |a| ==> forall i :: k <= i < |r| ==> r[i] == a[i + 1]
    ensures k >= |a| ==> r == a
  {
    if k < |a| then a[..k] + a[k + 1..] else a
  }

  /** `r` is `a` with some entries removed and the others kept in their order,
      which is all a run of splices can leave */
  predicate Sub<T(==)>(r: seq<T>, a: seq<T>)
    decreases |a|
  {
    |r| == 0 || (|a| > 0 && (Sub(r, a[1..]) || (r[0] == a[0] && Sub(r[1..], a[1..]))))
  }

  /** Every array is a sub-sequence of itself */
  lemma {:induction false} SubRefl<T>(a: seq<T>)
    ensures Sub(a, a)
    decreases |a|
  {
    if |a| > 0 {
      SubRefl(a[1..]);
    }
  }

  /** A sub-sequence of a suffix is a sub-sequence of the whole */
  lemma {:induction false} SubSkip<T>(r: seq<T>, a: seq<T>, k: nat)
    requires k <= |a| && Sub(r, a[k..])
    ensures Sub(r, a)
    decreases k
  {
    if k > 0 {
      assert a[1..][k - 1..] == a[k..];
      SubSkip(r, a[1..], k - 1);
    } else {
      assert a[k..] == a;
    }
  }

  /** Keeping entry `m` in front of a sub-sequence of what follows it */
  lemma SubCons<T>(a: seq<T>, m: nat, rest: seq<T>)
    requires m < |a| && Sub(rest, a[m + 1..])
    ensures Sub([a[m]] + rest, a)
  {
    var r := [a[m]] + rest;
    assert r[1..] == rest;
    assert a[m..][1..] == a[m + 1..];
    assert Sub(r, a[m..]);
    SubSkip(r, a, m);
  }
}

=== FILE: optional.dfy ===
/** A value that JavaScript may leave `undefined` (a missing field, a missing argument). */
module Optional {

  datatype Option<+T> = None | Some(value: T)
}

=== FILE: scene.dfy ===
/**
 The records the whiteboard component keeps in React state: sampled stroke
 points, strokes, shape elements, the selected element and the interaction
 action. Coordinates are canvas pixels, modelled as integers.
 */
module Scene {
  import opened Optional

  /** The toolbar's `toolType`. Every value other than the five named tools
      is a shape kind handed to `createElement` ("line", "rectangle", ...), so
      the `name` of a `Shape` is never "selection", "eraser", "text", "pencil"
      or "brush": those strings select the other constructors. */
  datatype Tool = Selection | Eraser | Text | Pencil | Brush | Shape(name: string)

  /** The two object shapes a stroke point can have. A point recorded on
      mouse-down carries `newColour`/`newLinewidth`; a point recorded on
      mouse-move carries `colour`/`linewidth` instead, copied from the
      previous point's `newColour`/`newLinewidth`. */
  datatype Style =
    | StyleNew(newColour: string, newLinewidth: int)
    | StylePlain(colour: Option<string>, linewidth: Option<int>)

  /** One sampled pointer position of a freehand stroke */
  datatype Point = Point(clientX: int, clientY: int, style: Style, transparency: string)

  type Stroke = seq<Point>

  /** Reading `point.newColour`: undefined on a mouse-move point */
  function NewColour(p: Point): (c: Option<string>)
    ensures c.Some? <==> p.style.StyleNew?
    ensures p.style.StyleNew? ==> c == Some(p.style.newColour)
  {
    match p.style
    case StyleNew(colour, _) => Some(colour)
    case StylePlain(_, _) => None
  }

  /** Reading `point.newLinewidth`: undefined on a mouse-move point */
  function NewLinewidth(p: Point): (w: Option<int>)
    ensures w.Some? <==> p.style.StyleNew?
    ensures p.style.StyleNew? ==> w == Some(p.style.newLinewidth)
  {
    match p.style
    case StyleNew(_, width) => Some(width)
    case StylePlain(_, _) => None
  }

  /** The record `createElement` returns, without its rough.js drawable.
      `strokeWidth` is optional because one caller passes an undefined width. */
  datatype Element = Element(
    id: nat,
    x1: int, y1: int, x2: int, y2: int,
    kind: Tool,
    strokeWidth: Option<int>,
    strokeColor: string)

  /** The four coordinates the geometry helpers read and return */
  datatype Corners = Corners(x1: int, y1: int, x2: int, y2: int)

  function CornersOf(e: Element): Corners {
    Corners(e.x1, e.y1, e.x2, e.y2)
  }

  /** What `getElementAtPosition` returns on a hit: the element and the
      position tag ("inside", or a corner/edge tag) */
  datatype Hit = Hit(elem: Element, position: string)

  /** `selectedElement`: either a hit grabbed with the selection tool, with
      its grab offset, or the element a shape tool has just created (which
      has no position and no offset). */
  datatype Selected =
    | Grabbed(elem: Element, position: string, offsetX: int, offsetY: int)
    | Created(elem: Element)

  /** The `action` string: "none", "sketching", "drawing", "moving", "resize", "erasing" */
  datatype Action = Idle | Sketching | Drawing | Moving | Resize | Erasing
}

=== FILE: sync.dfy ===
/**
 The inbound half of the snapshot exchange: the test a received "draw"
 message must pass before its image is painted (WhiteBoard.tsx lines 348-353).
 */
module Sync {
  import opened Optional

  /** A JavaScript value as far as strict equality `===` can tell it apart.
      `Obj` is an object or array: a received one is a fresh object, never
      identical to anything held locally. */
  datatype JsValue = Undef | Str(s: string) | Num(n: int) | Obj

  /** `a === b` for a local value `a` and a value `b` received over the socket */
  predicate StrictEquals(a: JsValue, b: JsValue) {
    match (a, b)
    case (Undef, Undef) => true
    case (Str(p), Str(q)) => p == q
    case (Num(m), Num(n)) => m == n
    case _ => false
  }

  /** The payload of a received "draw" message; the image is not modelled */
  datatype Message = Message(room: JsValue, userid: JsValue)

  /** `data?.room` and `data?.userid`: a missing message reads as undefined */
  function RoomOf(data: Option<Message>): JsValue {
    if data.Some? then data.value.room else Undef
  }

  function SenderOf(data: Option<Message>): JsValue {
    if data.Some? then data.value.userid else Undef
  }

  /** `roomid === data?.room && userid !== data?.userid`, where `roomid` is the
      router's room parameter (undefined, a string or an array) and `userid` the
      local participant's number */
  function Accepts(roomid: JsValue, userid: int, data: Option<Message>): (ok: bool)
    ensures roomid.Str? && data.Some? ==>
      (ok <==> data.value.room == roomid && data.value.userid != Num(userid))
    ensures data.Some? && data.value.userid == Num(userid) ==> !ok
    ensures roomid.Obj? ==> !ok
    ensures roomid.Str? && data.None? ==> !ok
    ensures roomid.Undef? ==> (ok <==> RoomOf(data).Undef? && SenderOf(data) != Num(userid))
    ensures roomid.Undef? && data.None? ==> ok
  {
    StrictEquals(roomid, RoomOf(data)) && !StrictEquals(Num(userid), SenderOf(data))
  }

  /** What the "draw" listener does with a message: ignore it, hand its blob
      to the canvas, or throw reading `data.blob` from a missing message */
  datatype Delivery = Ignored | Painted | Threw

  /** Lines 348-353: the filter, then `data.blob`. A missing message passes
      the filter only when the room is undefined too, and then the read throws. */
  function Receive(roomid: JsValue, userid: int, data: Option<Message>): (d: Delivery)
    ensures d.Painted? <==> data.Some? && StrictEquals(roomid, data.value.room) && data.value.userid != Num(userid)
    ensures d.Threw? <==> data.None? && roomid.Undef?
    ensures d.Ignored? <==> !Accepts(roomid, userid, data)
  {
    if !Accepts(roomid, userid, data) then Ignored
    else if data.None? then Threw
    else Painted
  }
}
